=== FILE: README.md ===
# Request-handler model of a posting service with two-step login

This project models, in Dafny, the decision logic of the request handlers of a small social-posting
backend (Express on top of a Supabase/PostgREST store):

- **authentication** (`server/api/auth.js`): registration that always provisions a TOTP secret, a
  two-step login (password, then a time-windowed TOTP code), logout, and the OTP setup, OTP status and
  current-user endpoints;
- **the bearer guard** (`server/auth/passport.js`): the JWT strategy's verify callback, which refuses
  pending (`step: 'otp_pending'`) tokens before any lookup and attaches the stored user;
- **request utilities** (`server/utils.js`, duplicated in `server/api/users.js`): `requireFields` and
  `paginated`;
- **resource routes** for posts, comments, likes and user profiles: validation, then existence, then
  ownership, then mutation; idempotent deletes and likes; the author taken from the token; the
  profile-update whitelist; store error codes mapped to HTTP statuses.

Every handler is a pure function (only `Posts.List` and `Comments.List`, which sort, are short methods) from the request and the
store to a response and the new store. Stores are finite maps (users, posts, comments) or a set of
(user, post) pairs (likes). The foreign libraries are uninterpreted: `bcrypt.hash`/`bcrypt.compare`,
the TOTP code of a secret at a time step, and the otpauth URL builder are function-valued fields of
`Primitives.Crypto`. A signed token is a datatype that records its claims and the key it was signed
with. `Tokens.Verify` accepts it when the key matches and the current time is before `exp`, as
section 4.1.4 of RFC 7519 requires. The claims are a tagged union: `Pending` when the payload carries
`step: 'otp_pending'`, `Final` otherwise. TOTP acceptance tries every counter within two 30-second
steps of now, as sections 4 and 5.2 of RFC 6238 describe. Randomness (ids, salts, fresh secrets) and
the clock are handler parameters. A store outage during a request is the parameter `fault`. When it
is present, every store call of that request fails with it: `Reported` is an `{ error }` with its
PostgREST/Postgres code, and `Raised` is an exception.

Modules: `Options`, `Json` (request values and JavaScript truthiness), `Http` (responses, store
faults, the error middleware), `Primitives`, `Otp`, `Tokens`, `Listing` (newest-first ordering and
`range` windows), `Utils`, `UserStore`, `Passport`, `Auth`, `AuthProperties`, `Posts`, `Comments`,
`Likes`, `Users`.

Three behaviours of the handlers are easy to misread:
- A duplicate registration answers 400, not 409.
- A reported store error (`{ error }`) during login's lookup answers 401, like an unknown user; a raised exception there answers 500.
- `PATCH /users/:id` on a row that has vanished gets PGRST116 from `.single()` and answers 500. The
  handler's `!updatedUser` 404 branch cannot be reached.

## Model

| member | source | states |
|---|---|---|
| Auth.Register | server/api/auth.js:28-86 | A missing username, email or password gives 400 with the store unchanged. If any row already holds the username or the email, the answer is 400 and nothing is inserted. A store failure gives 500 with no change. 201 happens exactly when the fields are present, the store is up and nothing clashes. Then exactly one row is added: it holds the bcrypt hash and a non-empty OTP secret equal to the `otp_secret` returned, and the returned token verifies as a final token for the new id with a 24h expiry |
| Auth.RegisterAsWritten | server/api/auth.js:36-44 | The pre-check as written: a single matching row gives 400; no failed registration changes the store |
| Auth.Login | server/api/auth.js:90-159 | A missing username or password gives 400. An unknown user, a wrong password or a reported store error all give the same 401; a raised store exception gives 500. Success happens exactly when the password opens the account. A user with an OTP secret gets only a pending token (`Pending`, 5-minute expiry) and never a final one. A user without one gets a final token for their id with a 24h expiry |
| Auth.VerifyOtp | server/api/auth.js:162-230 | Missing fields give 400. An invalid or expired token gives 401. A final token gives 401. For a live pending token, a missing user or a reported lookup error gives 401 "Utente non trovato", a code outside the ±2-step window gives 401 "Codice OTP non valido", and a raised store exception or a user without a secret gives 500. A session is issued exactly when a live pending token names an existing user whose secret accepts the code within ±2 steps. That session is a final token for that user |
| Auth.SetupOtp | server/api/auth.js:247-291 | With no secret stored, the generated secret is stored and returned. With one stored, that one is returned and the store is untouched. The URL is built from the secret and the account's email. Store failures give 500 with no change |
| Auth.OtpStatusOf | server/api/auth.js:294-313 | Reports `!!otp_secret` of the stored row and mutates nothing; store failures give 500 |
| Auth.CurrentUser | server/api/auth.js:317-327 | Answers 200 with the attached user's id, username, email and bio. `has_otp` is true exactly when that user's secret is a non-empty string |
| Auth.Logout | server/api/auth.js:234-243 | Always answers 200: logging out has no server state to clear, and tokens stay valid until they expire |
| AuthProperties.RegisterPreservesWellFormed | server/api/auth.js:36-68 | Registration keeps ids, usernames and emails unique |
| AuthProperties.LoginHidesWhichCheckFailed | server/api/auth.js:105-113 | An unknown username and a wrong password produce the identical 401 response (no enumeration) |
| AuthProperties.SetupOtpIdempotent | server/api/auth.js:258-271 | A second OTP setup returns the same secret and leaves the store as the first left it |
| AuthProperties.StatusAfterSetup | server/api/auth.js:258-271 | After `/otp/setup`, `/otp/status` reports the second factor as enabled (shown against server/api/auth.js:294-313) |
| AuthProperties.RegisteredUserNeedsOtp | server/api/auth.js:116-133 | After registering, the right password alone yields only a pending token for the new id |
| AuthProperties.Handshake | server/api/auth.js:90-226 | Register, log in, then submit the current TOTP code: the result is a final token that passes the guard, while the pending token is rejected |
| AuthProperties.SessionPassesGuard | server/api/auth.js:207-226 | A session issued by the second step passes the guard for its 24h lifetime while the account exists |
| AuthProperties.CurrentUserIsStoredUser | server/api/auth.js:317-327 | `/me` after the guard shows the stored record of the token's user: its id, username, email, bio and whether it holds a secret |
| AuthProperties.RegisterAsWrittenMisreportsDuplicate | server/api/auth.js:36-68 | Two accounts, one holding the username and one the email: as written the pre-check misses the clash and the insert's unique violation surfaces as 500; the corrected check answers 400 |
| Passport.CheckPayload | server/auth/passport.js:17-48 | A pending payload is rejected. The user is attached exactly when the payload is final, the store is up and the id exists, and the attached user is the stored record. A raised store exception is a failure, distinct from a rejection |
| Passport.Authenticate | server/auth/passport.js:14-48 | A missing, badly signed or expired bearer token is rejected (401), never failed. The guard passes exactly for a verified, unexpired final token whose id is stored, and attaches that row. It fails (500) exactly when such a final token meets a raised store exception |
| Passport.PendingNeverPasses | server/auth/passport.js:23-26 | A pending token is rejected whatever the store holds |
| Passport.PendingDecidedWithoutStore | server/auth/passport.js:23-30 | The pending verdict does not depend on the store or its availability (no lookup is made) |
| Passport.ExceptionIsFailure | server/auth/passport.js:44-47 | A store exception yields `done(err)`, not a rejection |
| Utils.RequireFields | server/utils.js:10-17 | Throws exactly when some listed field is undefined, null or `''`. The error has status 400 and names the missing fields, joined by `, ` |
| Utils.MissingMembers | server/utils.js:11 | A field is reported exactly when it is listed and missing |
| Utils.MissingKeepsOrder | server/utils.js:11-13 | The missing fields keep the order they were listed in (filtering distributes over concatenation) |
| Utils.MissingSingle | server/utils.js:11 | A single-field check reports that field exactly when it is missing |
| Utils.MissingAgree | server/utils.js:11 | Two bodies that agree on which listed fields are missing yield the same report |
| Utils.Paginate | server/utils.js:25-29 | The limit is never above 100 and defaults to 20. A negative limit passes through unchanged. The offset is never negative and defaults to 0 |
| Listing.SortDesc | server/api/posts.js:22 | Lists every selected row exactly once, newest first |
| Listing.Window | server/api/posts.js:23 | The page holds the rows at indices offset to offset+limit-1 that exist |
| Listing.WindowOfListing | server/api/posts.js:20-23 | A page is newest first, holds only selected rows and is no longer than the selection |
| Posts.List | server/api/posts.js:12-35 | The items are a window of the posts (filtered by `user_id` when given), newest first. `count` is the number of matching posts, and limit and offset are the clamped values |
| Posts.Get | server/api/posts.js:39-60 | Returns the stored post. An absent post or PGRST116 gives 404. Any other store error is rethrown and answered 500 |
| Posts.Create | server/api/posts.js:65-90 | A missing `content` gives 400 with no change. With the store up, exactly one post is added, and its author is the authenticated user; a store failure gives 500 with no change |
| Posts.Update | server/api/posts.js:94-141 | A falsy `content` gives 400 before any lookup. A missing post (or PGRST116) gives 404 and a non-author gets 403, both with no change. Any other store error gives 500 with no change. The store changes only for the author, and only that post's `content` changes; the author's update always succeeds when the store is up |
| Posts.Delete | server/api/posts.js:145-182 | A missing post (or PGRST116) gives 204. A non-author gets 403 with no change. Any other store error gives 500 and removes nothing. The author's delete removes only that post |
| Posts.AuthorNotFromBody | server/api/posts.js:67-76 | The body's other fields (a `user_id` among them) cannot change the created post |
| Posts.DeleteIdempotent | server/api/posts.js:157-160 | Repeating a successful delete answers 204 and changes nothing |
| Posts.UpdateIdempotent | server/api/posts.js:124-137 | Repeating an update leaves the store as the first one left it |
| Posts.GetAfterCreate | server/api/posts.js:65-90 | A created post is what `GET /posts/:id` then returns (shown against server/api/posts.js:39-60) |
| Posts.GetAfterUpdate | server/api/posts.js:124-137 | After an update, `GET /posts/:id` returns the edited post and every other post reads as before |
| Comments.List | server/api/comments.js:14-35 | The items are a window of the comments (filtered by `post_id` when given), newest first, with the matching count |
| Comments.Get | server/api/comments.js:41-59 | Returns the stored comment. An absent comment or PGRST116 gives 404. Any other store error is rethrown and answered 500 |
| Comments.Create | server/api/comments.js:64-84 | `post_id` and `content` are required, and a missing one gives 400 with no change. With the store up, exactly one comment is added, and its author is the authenticated user; a store failure gives 500 with no change |
| Comments.Update | server/api/comments.js:90-132 | 400 only when the `content` key is absent. A missing comment (or PGRST116) gives 404 and a non-author gets 403, both with no change. Any other store error gives 500 with no change. Only `content` and `updated_at` of that comment change; the author's edit always succeeds when the store is up |
| Comments.Delete | server/api/comments.js:136-171 | A missing comment (or PGRST116) gives 204. A non-author gets 403 with no change. Any other store error gives 500 and removes nothing. The author's delete removes only that comment |
| Comments.EmptyContentAccepted | server/api/comments.js:96-101 | An empty-string `content` is accepted, unlike for posts |
| Comments.AuthorNotFromBody | server/api/comments.js:66-73 | Only `post_id` and `content` of the body matter; the author comes from the token |
| Comments.DeleteIdempotent | server/api/comments.js:148-151 | Repeating a successful delete answers 204 and changes nothing |
| Comments.GetAfterCreate | server/api/comments.js:64-84 | A created comment is what `GET /comments/:id` then returns (shown against server/api/comments.js:41-59) |
| Comments.GetAfterUpdate | server/api/comments.js:120-130 | After an edit, `GET /comments/:id` returns the comment with the new `content` and `updated_at`, and every other comment reads as before |
| Likes.List | server/api/likes.js:13-40 | With the store up, `count` equal to `'true'` answers only `{count}`, the number of likes matching the given `post_id`/`user_id` filters. Any other `count` answers 200 with exactly those likes and their count. A store failure gives 500 |
| Likes.Add | server/api/likes.js:46-87 | A missing `post_id` gives 400 with no change. An existing like gives 200 with no change. Otherwise exactly `(me, post_id)` is added and the answer is 201. A store failure gives 500 and leaves the set unchanged |
| Likes.Remove | server/api/likes.js:92-114 | A missing `post_id` gives 400. Otherwise the caller's pair is removed and the answer is 204, whether or not the pair existed. No other pair changes. A store failure gives 500 and removes nothing |
| Likes.AddIdempotent | server/api/likes.js:54-66 | Liking twice is liking once |
| Likes.AddRemoveRoundTrip | server/api/likes.js:69-110 | Unliking after liking removes exactly that pair. Liking again after unliking an existing like restores the set |
| Likes.RemoveIdempotent | server/api/likes.js:100-110 | Unliking twice is unliking once |
| Likes.ListAfterAdd | server/api/likes.js:69-86 | After a like, the post's like list holds the pair, and its count grew by one exactly when the pair was new (shown against server/api/likes.js:13-40) |
| Users.Get | server/api/users.js:75-104 | A stored row gives its public projection. No row or PGRST116 gives 404. Any other reported store error gives 500 |
| Users.Whitelist | server/api/users.js:138-140 | Only a truthy `username` and a truthy `bio` are taken from the body |
| Users.Patch | server/api/users.js:125-181 | A path id other than the token's gives 403 before any store access. No whitelisted field gives 400 with no change. The owner's update with a free username succeeds with 200 when the row exists and the store is up; only username and bio change. A username taken by another row, or code 23505, gives 409. A vanished row and other store errors give 500. No failure changes the store |
| Users.Delete | server/api/users.js:185-212 | A path id other than the token's gives 403 with no change. Otherwise the owner's row is removed and the answer is 204. A store failure gives 500 and removes nothing |
| Users.ProfileHidesCredentials | server/api/users.js:93-99 | The profile response does not depend on the password hash, salt or OTP secret |
| Users.PatchIgnoresOtherFields | server/api/users.js:138-144 | Body fields other than `username` and `bio` cannot change the outcome |
| Users.PatchPreservesWellFormed | server/api/users.js:147-161 | A profile update keeps usernames and emails unique |
| Users.DeleteIdempotent | server/api/users.js:196-207 | Deleting one's profile twice is deleting it once: the repeat answers 204 and changes nothing |
| Users.DeletedUserLocksOut | server/api/users.js:196-207 | Once the profile is deleted, no token naming it passes the guard, not even a live session (shown against server/auth/passport.js:30-42) |
| Otp.Scan | server/api/auth.js:196-201 | Trying counters from low to high accepts exactly when some counter in the range produces the code |
| Otp.Accepts | server/api/auth.js:196-201 | A code is accepted exactly when it matches the TOTP code of some counter within ±2 of the current one |
| Otp.DriftTolerated | server/api/auth.js:200 | Codes from up to two steps before or after now are accepted |
| Otp.FarDriftRejected | server/api/auth.js:200 | A code matching a counter three or more steps away is rejected, provided no counter inside the window produces the same code |
| Tokens.SignVerify | server/api/auth.js:173 | Before `exp`, a signed token verifies to its claims. It fails under any other key, and at every time from `exp` on |
| UserStore.FindByUsername | server/api/auth.js:99-103 | `.single()` yields a row exactly when one row has the username, and it is that row |
| UserStore.FindByUsernameFinds | server/api/auth.js:99-107 | In a store with unique usernames, an account's own username finds it |
| Http.Rethrown | app.js:62-66 | A rethrown store error is answered with 500 and a non-empty message |
| Http.Tolerant | server/api/posts.js:113 | A PGRST116 error reads as "no row"; any other store error is rethrown |

## Findings

| source | as written | input that shows it | evidently intended | confidence | as-written member | corrected member |
|---|---|---|---|---|---|---|
| server/api/auth.js:36-44 | The duplicate pre-check reads `.or('email.eq.…,username.eq.…').single()`. With two matching rows `.single()` yields no data, so the handler goes on to insert, and the unique violation is rethrown as 500 | Stored accounts alice/alice@x.com and bob/bob@x.com; register username `bob`, email `alice@x.com` | Answer 400 "Email o username già in uso" whenever any row holds the username or the email | medium, not executed (rests on `.single()` failing for two rows and on unique constraints in the schema) | Auth.RegisterAsWritten, shown by AuthProperties.RegisterAsWrittenMisreportsDuplicate | Auth.Register |

## Left out

- Cryptography: bcrypt salting and hashing, JWT signing and signature checking, speakeasy's secret generation, HMAC/TOTP computation, base32 and the otpauth URL format are foreign libraries. They appear only as uninterpreted functions, and as a token datatype that records its signing key.
- Auth.VerifyOtp: the TOTP library's own format checks (six digits, numeric, integer comparison) are folded into a plain comparison of the code with the library's code. A user row without a secret always answers 500, modelling the library's exception on a null secret, although the library only reaches the secret for a six-digit code.
- Auth.Register: only the final outcome of the insert under the table's unique constraints is modelled. The check-then-insert race between concurrent registrations is a database concern. So is the same race for likes.
- Credential fields of the authentication routes are absent-or-string. JSON numbers or booleans there (which bcrypt would reject) are not modelled. Arrays and objects in request bodies are not modelled anywhere.
- User ids are text (uuid strings): `UserId` is `string`. The ownership checks of `PATCH /users/:id` and `DELETE /users/:id` compare the path parameter, which is always text, with the token's id using `!==`. If the `users.id` column were numeric, every such request would answer 403; the model does not cover that schema.
- `parseInt` and its NaN results: `paginated` receives already-parsed optional integers.
- Listing.Window: a non-positive limit gives an empty page. What the store does with `range(offset, offset + limit - 1)` for a negative limit is not decided by the handlers.
- Timestamps (`created_at`, `updated_at`, the clock for tokens and TOTP) are opaque integer inputs.
- Store failures are per request: one `fault` makes every store call of that request fail. A request whose first store call succeeds and whose later call fails is not modelled.
- The query builder's joins (`users(id, username)`, `posts(id)`), the row order of `GET /likes` items, and the extra columns of inserted like rows are not modelled. Likes are (user, post) pairs.
- Foreign keys and `on delete cascade` belong to the database schema, which is not part of the source; the stores are independent.
- `GET /users` (list with the `ilike` search) and the unused `POST /users` stub, which never inserts or responds.
- Express, CORS, sessions, routing, logging, the 404 middleware, configuration loading and the mismatch between the two JWT secret sources (`app.js`, `server.js`, `server/api/index.js`, `server/api/health.js`, `server/db/index.js`). The guard receives the bearer token already extracted from the header. A single signing key is assumed.
- `POST /auth/logout` is a constant 200 acknowledgement (`Auth.Logout`); no server state exists to invalidate.

=== FILE: auth.dfy ===
/**
 * The handlers of server/api/auth.js: registration, the two-step login (password, then TOTP code),
 * logout, and the OTP enrolment and status endpoints behind the bearer guard.
 */
module Auth {
  import opened Options
  import opened Json
  import opened Http
  import opened Primitives
  import opened Tokens
  import Otp
  import opened UserStore

  const Issuer := "ProgettoRecluta"
  const AllFieldsRequired := "Tutti i campi sono obbligatori"
  const AlreadyInUse := "Email o username già in uso"
  const CredentialsRequired := "Username e password sono richiesti"
  const InvalidCredentials := "Credenziali non valide"
  const EnterOtp := "Inserisci il codice OTP per completare il login"
  const OtpFieldsRequired := "Token temporaneo e codice OTP sono richiesti"
  const TokenExpiredOrInvalid := "Token temporaneo scaduto o non valido"
  const WrongTokenKind := "Token non valido"
  const UserNotFound := "Utente non trovato"
  const InvalidOtp := "Codice OTP non valido"
  const LoggedOutMessage := "Logout effettuato. Il token va eliminato lato client."
  const StatusMessage := "Stato OTP recuperato con successo"
  /** Stands for the TypeError the TOTP library throws when it is handed a null secret. */
  const NullSecretError := "TypeError"

  datatype PublicUser = PublicUser(id: UserId, username: string, email: string)

  /** The `/me` view of the authenticated user. */
  datatype Account = Account(id: UserId, username: string, email: string, hasOtp: bool, bio: Option<string>)

  datatype AuthPayload =
    | Registered(user: PublicUser, token: Token, otpSecret: string)
      /** `{ success: true, token, user }` */
    | Session(token: Token, user: PublicUser)
      /** `{ success: false, requires_otp: true, temp_token, message }` */
    | OtpRequired(tempToken: Token, message: string)
    | LoggedOut(message: string)
    | OtpSetup(secret: string, otpauthUrl: string)
    | OtpStatus(enabled: bool, message: string)
    | Me(account: Account)

  /** What registration draws from outside: the id the store assigns, bcrypt's salt, speakeasy's secret, the clock. */
  datatype Draws = Draws(id: UserId, salt: string, secret: Secret, now: int)

  function Public(u: User): PublicUser {
    PublicUser(u.id, u.username, u.email)
  }

  /** Ids of the rows the duplicate pre-check's `.or('email.eq.<email>,username.eq.<username>')` selects. */
  function Claimants(db: Users, username: string, email: string): set<UserId> {
    set k | k in db && (db[k].email == email || db[k].username == username)
  }

  /** The registration a successful `/register` performs: exactly the new row is added. */
  ghost predicate Enrolled(c: Crypto, db: Users, store: Users, d: Draws, username: string, email: string, password: string) {
    && d.id in store
    && store == db[d.id := store[d.id]]
    && var row := store[d.id];
       && row.id == d.id && row.username == username && row.email == email
       && row.passwordHash == c.hash(password, row.salt)
       && row.otpSecret == Some(d.secret)
       && row.bio == None
  }

  /**
   * Hashing, secret generation, the insert under the table's unique constraints, and the 201 reply
   * with a final token carrying only the id.
   */
  function Enrol(c: Crypto, key: string, db: Users, username: string, email: string, password: string,
                 d: Draws, fault: Option<Fault>): Outcome<AuthPayload, Users>
  {
    if fault.Some? then Outcome(Rethrown(fault.value), db)
    else if Clashes(db, d.id, username, email) then Outcome(Rethrown(Reported(UniqueViolation, DuplicateKey)), db)
    else
      var row := User(d.id, username, email, c.hash(password, d.salt), d.salt, Some(d.secret), None, d.now);
      var token := Sign(key, Final(d.id, None, None, d.now + FinalTtl));
      Outcome(Reply(201, Registered(Public(row), token, d.secret)), db[d.id := row])
  }

  /**
   * `POST /auth/register` with the duplicate pre-check as written: `.single()` yields a row only
   * when exactly one row matches, so two rows (one per field) slip through to the insert.
   */
  function RegisterAsWritten(c: Crypto, key: string, db: Users, username: Option<string>, email: Option<string>,
                             password: Option<string>, d: Draws, fault: Option<Fault>): (o: Outcome<AuthPayload, Users>)
    requires d.id !in db
    ensures o.response.Code() != 201 ==> o.store == db
    ensures (fault.None? && Filled(username) && Filled(email) && Filled(password)
             && |Claimants(db, username.value, email.value)| == 1) ==> o.response == Error(400, AlreadyInUse)
  {
    if !Filled(username) || !Filled(email) || !Filled(password) then Outcome(Error(400, AllFieldsRequired), db)
    else if fault.None? && |Claimants(db, username.value, email.value)| == 1 then Outcome(Error(400, AlreadyInUse), db)
    else Enrol(c, key, db, username.value, email.value, password.value, d, fault)
  }

  /** `POST /auth/register`, with the pre-check rejecting whenever any row holds the username or the email. */
  function Register(c: Crypto, key: string, db: Users, username: Option<string>, email: Option<string>,
                    password: Option<string>, d: Draws, fault: Option<Fault>): (o: Outcome<AuthPayload, Users>)
    requires d.id !in db
    ensures !(Filled(username) && Filled(email) && Filled(password)) ==> o == Outcome(Error(400, AllFieldsRequired), db)
    ensures o.response.Code() != 201 ==> o.store == db
    ensures Filled(username) && Filled(email) && Filled(password) && fault.None?
            && (exists k :: k in db && (db[k].username == username.value || db[k].email == email.value))
            ==> o == Outcome(Error(400, AlreadyInUse), db)
    ensures o.response.Code() == 201 <==>
              && Filled(username) && Filled(email) && Filled(password) && fault.None?
              && !(exists k :: k in db && (db[k].username == username.value || db[k].email == email.value))
    ensures o.response.Code() == 201 ==>
              && Enrolled(c, db, o.store, d, username.value, email.value, password.value)
              && o.response.Reply?
              && o.response.payload.Registered?
              && o.response.payload.user == PublicUser(d.id, username.value, email.value)
              && o.store[d.id].otpSecret == Some(o.response.payload.otpSecret)
              && Verify(key, d.now, o.response.payload.token) == Some(Final(d.id, None, None, d.now + FinalTtl))
    ensures Filled(username) && Filled(email) && Filled(password) && fault.Some? ==> o.response.Code() == 500 && o.store == db
  {
    if !Filled(username) || !Filled(email) || !Filled(password) then Outcome(Error(400, AllFieldsRequired), db)
    else if fault.None? && Claimants(db, username.value, email.value) != {} then
      var k :| k in Claimants(db, username.value, email.value);
      Outcome(Error(400, AlreadyInUse), db)
    else
      assert fault.None? ==>
        forall k :: (k in db && (db[k].username == username.value || db[k].email == email.value)) ==>
          k in Claimants(db, username.value, email.value);
      Enrol(c, key, db, username.value, email.value, password.value, d, fault)
  }

  /** Whether `password` opens the account the login name finds. */
  predicate PasswordAccepted(c: Crypto, db: Users, username: string, password: string) {
    var found := FindByUsername(db, username);
    found.Some? && c.compare(password, found.value.passwordHash)
  }

  /** `POST /auth/login`, the first step. */
  function Login(c: Crypto, key: string, db: Users, username: Option<string>, password: Option<string>,
                 now: int, fault: Option<Fault>): (r: Response<AuthPayload>)
    ensures !(Filled(username) && Filled(password)) ==> r == Error(400, CredentialsRequired)
    ensures Filled(username) && Filled(password) && (fault.None? || fault.value.Reported?)
            && !(fault.None? && PasswordAccepted(c, db, username.value, password.value))
            ==> r == Error(401, InvalidCredentials)
    ensures Filled(username) && Filled(password) && fault.Some? && fault.value.Raised? ==> r.Code() == 500
    ensures r.Reply? ==> r.status == 200 && (r.payload.OtpRequired? || r.payload.Session?)
    ensures r.Reply? <==> Filled(username) && Filled(password) && fault.None? && PasswordAccepted(c, db, username.value, password.value)
    ensures r.Reply? ==>
              var user := FindByUsername(db, username.value).value;
              && (r.payload.OtpRequired? <==> Filled(user.otpSecret))
              && (r.payload.OtpRequired? ==>
                    Verify(key, now, r.payload.tempToken) == Some(Pending(user.id, user.username, now + PendingTtl)))
              && (r.payload.Session? ==>
                    && Verify(key, now, r.payload.token) == Some(Final(user.id, Some(user.username), Some(user.email), now + FinalTtl))
                    && r.payload.user == Public(user))
  {
    if !Filled(username) || !Filled(password) then Error(400, CredentialsRequired)
    else match fault
      case Some(Raised(_)) => Rethrown(fault.value)
      case Some(Reported(_, _)) => Error(401, InvalidCredentials)
      case None =>
        match FindByUsername(db, username.value)
        case None => Error(401, InvalidCredentials)
        case Some(user) =>
          if !c.compare(password.value, user.passwordHash) then Error(401, InvalidCredentials)
          else if Filled(user.otpSecret) then
            Reply(200, OtpRequired(Sign(key, Pending(user.id, user.username, now + PendingTtl)), EnterOtp))
          else
            Reply(200, Session(Sign(key, Final(user.id, Some(user.username), Some(user.email), now + FinalTtl)), Public(user)))
  }

  /** Both fields of `/verify-otp` are present and the temporary token is a live pending one. */
  predicate LivePending(key: string, now: int, tempToken: Option<Token>, otpToken: Option<string>) {
    && tempToken.Some? && Filled(otpToken)
    && Verify(key, now, tempToken.value).Some? && tempToken.value.claims.Pending?
  }

  /** `POST /auth/verify-otp`, the second step: only a live pending token and a code in the window yield a session. */
  function VerifyOtp(c: Crypto, key: string, db: Users, tempToken: Option<Token>, otpToken: Option<string>,
                     now: int, fault: Option<Fault>): (r: Response<AuthPayload>)
    ensures tempToken.None? || !Filled(otpToken) ==> r == Error(400, OtpFieldsRequired)
    ensures tempToken.Some? && Filled(otpToken) && Verify(key, now, tempToken.value).None?
            ==> r == Error(401, TokenExpiredOrInvalid)
    ensures tempToken.Some? && Filled(otpToken) && Verify(key, now, tempToken.value).Some? && tempToken.value.claims.Final?
            ==> r == Error(401, WrongTokenKind)
    ensures r.Reply? <==>
              && tempToken.Some? && Filled(otpToken)
              && Verify(key, now, tempToken.value).Some? && tempToken.value.claims.Pending?
              && fault.None? && tempToken.value.claims.id in db
              && db[tempToken.value.claims.id].otpSecret.Some?
              && Otp.Accepts(c.totp, db[tempToken.value.claims.id].otpSecret.value, otpToken.value, now)
    ensures r.Reply? ==>
              var user := db[tempToken.value.claims.id];
              && r.status == 200 && r.payload.Session? && r.payload.user == Public(user)
              && Verify(key, now, r.payload.token) == Some(Final(user.id, Some(user.username), Some(user.email), now + FinalTtl))
    ensures LivePending(key, now, tempToken, otpToken)
            && ((fault.None? && tempToken.value.claims.id !in db) || (fault.Some? && fault.value.Reported?))
            ==> r == Error(401, UserNotFound)
    ensures LivePending(key, now, tempToken, otpToken) && fault.Some? && fault.value.Raised? ==> r.Code() == 500
    ensures LivePending(key, now, tempToken, otpToken) && fault.None? && tempToken.value.claims.id in db
            && db[tempToken.value.claims.id].otpSecret.None?
            ==> r.Code() == 500
    ensures LivePending(key, now, tempToken, otpToken) && fault.None? && tempToken.value.claims.id in db
            && db[tempToken.value.claims.id].otpSecret.Some?
            && !Otp.Accepts(c.totp, db[tempToken.value.claims.id].otpSecret.value, otpToken.value, now)
            ==> r == Error(401, InvalidOtp)
  {
    if tempToken.None? || !Filled(otpToken) then Error(400, OtpFieldsRequired)
    else match Verify(key, now, tempToken.value)
      case None => Error(401, TokenExpiredOrInvalid)
      case Some(claims) =>
        if !claims.Pending? then Error(401, WrongTokenKind)
        else match fault
          case Some(Raised(_)) => Rethrown(fault.value)
          case Some(Reported(_, _)) => Error(401, UserNotFound)
          case None =>
            if claims.id !in db then Error(401, UserNotFound)
            else
              var user := db[claims.id];
              if user.otpSecret.None? then Rethrown(Raised(NullSecretError))
              else if !Otp.Accepts(c.totp, user.otpSecret.value, otpToken.value, now) then Error(401, InvalidOtp)
              else Reply(200, Session(Sign(key, Final(user.id, Some(user.username), Some(user.email), now + FinalTtl)), Public(user)))
  }

  /** `POST /auth/logout`: an acknowledgement only; tokens stay valid until they expire. */
  function Logout(): (r: Response<AuthPayload>)
    ensures r.Code() == 200
  {
    Reply(200, LoggedOut(LoggedOutMessage))
  }

  /** The label speakeasy puts in the provisioning URL. */
  function Label(email: string): string {
    Issuer + ":" + email
  }

  /** `GET /auth/otp/setup` for the user the guard attached (`me`); `generated` is the secret speakeasy would return. */
  function SetupOtp(c: Crypto, me: User, db: Users, generated: Secret, fault: Option<Fault>): (o: Outcome<AuthPayload, Users>)
    ensures fault.Some? || me.id !in db ==> o.store == db && o.response.Code() == 500
    ensures fault.None? && me.id in db ==>
              && o.response.Reply? && o.response.payload.OtpSetup? && me.id in o.store
              && o.store[me.id].otpSecret == Some(o.response.payload.secret)
              && o.response.payload.secret != ""
              && o.response.payload.otpauthUrl == c.otpauthUrl(o.response.payload.secret, Label(db[me.id].email), Issuer)
    ensures fault.None? && me.id in db && Filled(db[me.id].otpSecret) ==>
              o.store == db && o.response.payload.secret == db[me.id].otpSecret.value
    ensures fault.None? && me.id in db && !Filled(db[me.id].otpSecret) ==>
              o.store == db[me.id := db[me.id].(otpSecret := Some(generated))]
  {
    if fault.Some? then Outcome(Rethrown(fault.value), db)
    else if me.id !in db then Outcome(Rethrown(Reported(NoRows, NotSingleRow)), db)
    else
      var row := db[me.id];
      if Filled(row.otpSecret) then
        Outcome(Reply(200, OtpSetup(row.otpSecret.value, c.otpauthUrl(row.otpSecret.value, Label(row.email), Issuer))), db)
      else
        Outcome(Reply(200, OtpSetup(generated, c.otpauthUrl(generated, Label(row.email), Issuer))),
                db[me.id := row.(otpSecret := Some(generated))])
  }

  /** `GET /auth/otp/status`: whether the stored row has a secret (`!!otp_secret`); reads only. */
  function OtpStatusOf(me: User, db: Users, fault: Option<Fault>): (r: Response<AuthPayload>)
    ensures r.Reply? <==> fault.None? && me.id in db
    ensures r.Reply? ==> r.payload == OtpStatus(Filled(db[me.id].otpSecret), StatusMessage)
    ensures !r.Reply? ==> r.Code() == 500
  {
    if fault.Some? then Rethrown(fault.value)
    else if me.id !in db then Rethrown(Reported(NoRows, NotSingleRow))
    else Reply(200, OtpStatus(Filled(db[me.id].otpSecret), StatusMessage))
  }

  /** `GET /auth/me`: the attached user's public fields and whether a second factor is set. */
  function CurrentUser(me: User): (r: Response<AuthPayload>)
    ensures r.Reply? && r.status == 200 && r.payload.Me?
    ensures r.payload.account.id == me.id && r.payload.account.username == me.username
    ensures r.payload.account.email == me.email && r.payload.account.bio == me.bio
    ensures r.payload.account.hasOtp <==> me.otpSecret.Some? && me.otpSecret.value != ""
  {
    Reply(200, Me(Account(me.id, me.username, me.email, Filled(me.otpSecret), me.bio)))
  }
}

=== FILE: auth_properties.dfy ===
/** Properties relating several calls of the authentication handlers and the bearer guard. */
module AuthProperties {
  import opened Options
  import opened Json
  import opened Http
  import opened Primitives
  import opened Tokens
  import Otp
  import opened UserStore
  import opened Auth
  import opened Passport

  /** Registration keeps ids, usernames and emails unique. */
  lemma RegisterPreservesWellFormed(c: Crypto, key: string, db: Users, username: Option<string>, email: Option<string>,
                                    password: Option<string>, d: Draws, fault: Option<Fault>)
    requires WellFormed(db)
    requires d.id !in db
    ensures WellFormed(Register(c, key, db, username, email, password, d, fault).store)
  {
    var o := Register(c, key, db, username, email, password, d, fault);
    if o.response.Code() == 201 {
      var row := o.store[d.id];
      assert forall k :: k in db ==> db[k].username != row.username && db[k].email != row.email;
    }
  }

  /** Unknown login names and wrong passwords get the very same answer. */
  lemma LoginHidesWhichCheckFailed(c: Crypto, key: string, db: Users, now: int,
                                   unknown: string, p1: string, known: string, p2: string)
    requires unknown != "" && p1 != "" && known != "" && p2 != ""
    requires FindByUsername(db, unknown).None?
    requires FindByUsername(db, known).Some? && !c.compare(p2, FindByUsername(db, known).value.passwordHash)
    ensures Login(c, key, db, Some(unknown), Some(p1), now, None) == Login(c, key, db, Some(known), Some(p2), now, None)
    ensures Login(c, key, db, Some(unknown), Some(p1), now, None) == Error(401, InvalidCredentials)
  {
  }

  /** Calling `/otp/setup` again returns the same secret and changes nothing, whatever secret would be generated. */
  lemma SetupOtpIdempotent(c: Crypto, me: User, db: Users, s1: Secret, s2: Secret)
    requires me.id in db
    ensures var first := SetupOtp(c, me, db, s1, None);
            var second := SetupOtp(c, me, first.store, s2, None);
            && second.store == first.store
            && second.response == first.response
  {
    var first := SetupOtp(c, me, db, s1, None);
    assert Filled(first.store[me.id].otpSecret);
  }

  /** A registered user holds a secret, so the right password alone only yields a pending token. */
  lemma RegisteredUserNeedsOtp(c: Crypto, key: string, db: Users, username: string, email: string, password: string,
                               d: Draws, now: int)
    requires HashSound(c)
    requires WellFormed(db)
    requires d.id !in db
    requires Register(c, key, db, Some(username), Some(email), Some(password), d, None).response.Code() == 201
    ensures var db1 := Register(c, key, db, Some(username), Some(email), Some(password), d, None).store;
            var r := Login(c, key, db1, Some(username), Some(password), now, None);
            && r.Reply? && r.payload.OtpRequired?
            && Verify(key, now, r.payload.tempToken) == Some(Pending(d.id, username, now + PendingTtl))
  {
    var db1 := Register(c, key, db, Some(username), Some(email), Some(password), d, None).store;
    RegisterPreservesWellFormed(c, key, db, Some(username), Some(email), Some(password), d, None);
    FindByUsernameFinds(db1, d.id);
    assert c.compare(password, c.hash(password, db1[d.id].salt));
  }

  /**
   * The whole handshake: register, log in with the password, answer with the current TOTP code before
   * the pending token expires; the final token then passes the guard and the pending one does not.
   */
  lemma Handshake(c: Crypto, key: string, db: Users, username: string, email: string, password: string,
                  d: Draws, now: int)
    requires HashSound(c)
    requires WellFormed(db)
    requires d.id !in db
    requires Register(c, key, db, Some(username), Some(email), Some(password), d, None).response.Code() == 201
    ensures var db1 := Register(c, key, db, Some(username), Some(email), Some(password), d, None).store;
            var step1 := Login(c, key, db1, Some(username), Some(password), now, None);
            var code := c.totp(d.secret, Otp.Counter(now));
            && step1.Reply? && step1.payload.OtpRequired?
            && (code != "" ==>
                  var step2 := VerifyOtp(c, key, db1, Some(step1.payload.tempToken), Some(code), now, None);
                  && step2.Reply? && step2.payload.Session?
                  && Authenticate(key, now, Some(step2.payload.token), db1, None) == Authenticated(db1[d.id])
                  && Authenticate(key, now, Some(step1.payload.tempToken), db1, None).Rejected?)
  {
    var db1 := Register(c, key, db, Some(username), Some(email), Some(password), d, None).store;
    RegisteredUserNeedsOtp(c, key, db, username, email, password, d, now);
    var step1 := Login(c, key, db1, Some(username), Some(password), now, None);
    var code := c.totp(d.secret, Otp.Counter(now));
    Otp.DriftTolerated(c.totp, d.secret, now, 0);
    assert Otp.Counter(now) + 0 == Otp.Counter(now);
  }

  /** A session from the second step opens the guard for as long as the account exists and the token lives. */
  lemma SessionPassesGuard(c: Crypto, key: string, db: Users, t: Option<Token>, code: Option<string>, now: int, later: int)
    requires WellFormed(db)
    requires VerifyOtp(c, key, db, t, code, now, None).Reply?
    requires now <= later < now + FinalTtl
    ensures var session := VerifyOtp(c, key, db, t, code, now, None).payload.token;
            Authenticate(key, later, Some(session), db, None) == Authenticated(db[t.value.claims.id])
  {
  }

  /** `/me` after the guard shows the stored record of the token's user. */
  lemma CurrentUserIsStoredUser(key: string, now: int, t: Token, db: Users)
    requires Authenticate(key, now, Some(t), db, None).Authenticated?
    ensures var r := CurrentUser(Authenticate(key, now, Some(t), db, None).user);
            && r.payload.account.id == db[t.claims.id].id
            && r.payload.account.username == db[t.claims.id].username
            && r.payload.account.email == db[t.claims.id].email
            && r.payload.account.bio == db[t.claims.id].bio
            && (r.payload.account.hasOtp <==> Filled(db[t.claims.id].otpSecret))
  {
  }

  /** Two accounts, one per clashing field of a later registration. */
  function TwoAccounts(): Users {
    map["1" := User("1", "alice", "alice@x.com", "h1", "s1", None, None, 0),
        "2" := User("2", "bob", "bob@x.com", "h2", "s2", None, None, 0)]
  }

  /**
   * The pre-check as written misses a registration whose username belongs to one account and whose
   * email belongs to another: the insert then breaks a unique constraint and the client gets 500, not 400.
   */
  lemma RegisterAsWrittenMisreportsDuplicate(c: Crypto, key: string, d: Draws)
    requires d.id !in TwoAccounts()
    ensures RegisterAsWritten(c, key, TwoAccounts(), Some("bob"), Some("alice@x.com"), Some("pw"), d, None).response
            .Code() == 500
    ensures Register(c, key, TwoAccounts(), Some("bob"), Some("alice@x.com"), Some("pw"), d, None).response
            == Error(400, AlreadyInUse)
  {
    var db := TwoAccounts();
    assert Claimants(db, "bob", "alice@x.com") == {"1", "2"};
    assert Clashes(db, d.id, "bob", "alice@x.com") by {
      assert "1" in db && "1" != d.id;
    }
    assert db["1"].username == "alice";
  }

  /** After `/otp/setup`, `/otp/status` reports the second factor as enabled. */
  lemma StatusAfterSetup(c: Crypto, me: User, db: Users, generated: Secret)
    requires me.id in db
    ensures var o := SetupOtp(c, me, db, generated, None);
            OtpStatusOf(me, o.store, None) == Reply(200, OtpStatus(true, StatusMessage))
  {
  }
}

=== FILE: comments.dfy ===
/** The handlers of server/api/comments.js. Protected routes receive `me`, the id of the user the guard attached. */
module Comments {
  import opened Options
  import opened Json
  import opened Http
  import opened Utils
  import opened Listing

  /** A comment row; `post` is the `post_id` as the store keeps it, `updatedAt` is set by edits. */
  datatype Comment = Comment(id: string, post: string, author: UserId, content: Value, createdAt: int, updatedAt: Option<int>)

  type Comments = map<string, Comment>

  const NothingToUpdate := "Nessun campo valido (solo \"content\" supportato) fornito per l'aggiornamento."
  const CommentNotFound := "Commento non trovato"
  const CannotEdit := "Non sei autorizzato a modificare questo commento."
  const CannotDelete := "Non sei autorizzato a cancellare questo commento."

  function CreatedAt(c: Comment): int {
    c.createdAt
  }

  /** The comments `GET /comments` selects: all, or those under `post_id` when that parameter is truthy. */
  function Selected(db: Comments, postId: Option<string>): set<Comment> {
    set c | c in db.Values && (Filled(postId) ==> c.post == postId.value)
  }

  /** `GET /comments?post_id=&limit=&offset=`: the matching comments newest first, cut to the requested window. */
  method List(db: Comments, limit: Option<int>, offset: Option<int>, postId: Option<string>, fault: Option<Fault>)
    returns (r: Response<Page<Comment>>)
    ensures fault.Some? ==> r.Code() == 500
    ensures fault.None? ==>
              var p := Paginate(limit, offset);
              && r.Reply? && r.status == 200
              && r.payload.limit == p.limit && r.payload.offset == p.offset
              && r.payload.count == |Selected(db, postId)|
              && exists rows :: Lists(rows, Selected(db, postId), CreatedAt) && r.payload.items == Window(rows, p.offset, p.limit)
  {
    var p := Paginate(limit, offset);
    if fault.Some? {
      return Rethrown(fault.value);
    }
    var matching := Selected(db, postId);
    var rows := SortDesc(matching, CreatedAt);
    r := Reply(200, Page(Window(rows, p.offset, p.limit), |matching|, p.limit, p.offset));
  }

  /** `GET /comments/:id`. */
  function Get(id: string, db: Comments, fault: Option<Fault>): (r: Response<Comment>)
    ensures fault.None? ==> r == if id in db then Reply(200, db[id]) else Error(404, CommentNotFound)
    ensures fault.Some? && fault.value.Reported? && fault.value.code == NoRows ==> r == Error(404, CommentNotFound)
    ensures Fatal(fault) ==> r.Code() == 500
  {
    match Tolerant(db, id, fault)
    case Faulted(f) => Rethrown(f)
    case Absent => Error(404, CommentNotFound)
    case Found(c) => Reply(200, c)
  }

  /** `POST /comments`: `post_id` and `content` are required; the author is always the authenticated user. */
  function Create(me: UserId, body: Body, db: Comments, newId: string, now: int, fault: Option<Fault>): (o: Outcome<Comment, Comments>)
    requires newId !in db
    ensures IsMissing(body, "post_id") || IsMissing(body, "content") ==> o.response.Code() == 400 && o.store == db
    ensures IsMissing(body, "post_id") && !IsMissing(body, "content") ==> o.response == Error(400, MissingPrefix + "post_id")
    ensures o.response.Code() == 201 <==> !IsMissing(body, "post_id") && !IsMissing(body, "content") && fault.None?
    ensures o.response.Code() != 201 ==> o.store == db
    ensures !IsMissing(body, "post_id") && !IsMissing(body, "content") && fault.Some? ==> o.response.Code() == 500
    ensures o.response.Code() == 201 ==>
              && o.response.Reply?
              && o.response.payload == Comment(newId, Text(body["post_id"]), me, body["content"], now, None)
              && o.store == db[newId := o.response.payload]
  {
    var required := ["post_id", "content"];
    match RequireFields(body, required)
    case Invalid(status, message) =>
      MissingKeepsOrder(body, ["post_id"], ["content"]);
      assert required == ["post_id"] + ["content"];
      MissingSingle(body, "post_id");
      MissingSingle(body, "content");
      Outcome(Error(status, message), db)
    case Valid =>
      if fault.Some? then Outcome(Rethrown(fault.value), db)
      else
        var c := Comment(newId, Text(body["post_id"]), me, body["content"], now, None);
        Outcome(Reply(201, c), db[newId := c])
  }

  /**
   * `PATCH /comments/:id`: the `content` key must be present (any value, even `''` or `null`), then
   * existence, then authorship, then the update of `content` and `updated_at`.
   */
  function Update(me: UserId, id: string, body: Body, db: Comments, now: int, fault: Option<Fault>): (o: Outcome<Comment, Comments>)
    ensures "content" !in body ==> o == Outcome(Error(400, NothingToUpdate), db)
    ensures "content" in body && fault.None? && id !in db ==> o == Outcome(Error(404, CommentNotFound), db)
    ensures "content" in body && fault.None? && id in db && db[id].author != me
            ==> o == Outcome(Error(403, CannotEdit), db)
    ensures o.store != db ==> id in db && db[id].author == me && fault.None?
    ensures o.response.Reply? ==>
              && fault.None? && id in db && db[id].author == me
              && o.response.payload == db[id].(content := body["content"], updatedAt := Some(now))
              && o.store == db[id := o.response.payload]
    ensures "content" in body && fault.None? && id in db && db[id].author == me ==> o.response.Reply?
    ensures "content" in body && fault.Some? && !Fatal(fault) ==> o == Outcome(Error(404, CommentNotFound), db)
    ensures "content" in body && Fatal(fault) ==> o.response.Code() == 500 && o.store == db
  {
    if "content" !in body then Outcome(Error(400, NothingToUpdate), db)
    else match Tolerant(db, id, fault)
      case Faulted(f) => Outcome(Rethrown(f), db)
      case Absent => Outcome(Error(404, CommentNotFound), db)
      case Found(c) =>
        if c.author != me then Outcome(Error(403, CannotEdit), db)
        else
          var updated := c.(content := body["content"], updatedAt := Some(now));
          Outcome(Reply(200, updated), db[id := updated])
  }

  /** `DELETE /comments/:id`: 204 when the comment is already gone, 403 for anyone but its author. */
  function Delete(me: UserId, id: string, db: Comments, fault: Option<Fault>): (o: Outcome<Comment, Comments>)
    ensures fault.None? && id !in db ==> o == Outcome(NoContent, db)
    ensures fault.Some? && !Fatal(fault) ==> o == Outcome(NoContent, db)
    ensures Fatal(fault) ==> o.response.Code() == 500 && o.store == db
    ensures fault.None? && id in db && db[id].author != me ==> o == Outcome(Error(403, CannotDelete), db)
    ensures fault.None? && id in db && db[id].author == me ==> o == Outcome(NoContent, db - {id})
    ensures o.store != db ==> id in db && db[id].author == me && o.store == db - {id}
  {
    match Tolerant(db, id, fault)
    case Faulted(f) => Outcome(Rethrown(f), db)
    case Absent => Outcome(NoContent, db)
    case Found(c) =>
      if c.author != me then Outcome(Error(403, CannotDelete), db)
      else Outcome(NoContent, db - {id})
  }

  /** Unlike a post edit, a comment edit accepts an empty `content`. */
  lemma EmptyContentAccepted(me: UserId, id: string, db: Comments, now: int)
    requires id in db && db[id].author == me
    ensures Update(me, id, map["content" := Str("")], db, now, None).response.Reply?
  {
  }

  /** The author comes from the token: bodies agreeing on `post_id` and `content` create the same comment. */
  lemma AuthorNotFromBody(me: UserId, b1: Body, b2: Body, db: Comments, newId: string, now: int, fault: Option<Fault>)
    requires newId !in db
    requires Field(b1, "post_id") == Field(b2, "post_id") && Field(b1, "content") == Field(b2, "content")
    ensures Create(me, b1, db, newId, now, fault) == Create(me, b2, db, newId, now, fault)
  {
    var required := ["post_id", "content"];
    assert forall f :: f in required ==> IsMissing(b1, f) == IsMissing(b2, f);
    MissingAgree(b1, b2, required);
  }

  /** Deleting twice is deleting once: the repeat answers 204 and changes nothing. */
  lemma DeleteIdempotent(me: UserId, id: string, db: Comments)
    requires Delete(me, id, db, None).response == NoContent
    ensures var once := Delete(me, id, db, None).store;
            Delete(me, id, once, None) == Outcome(NoContent, once)
  {
  }

  /** A created comment is what `GET /comments/:id` then returns. */
  lemma GetAfterCreate(me: UserId, body: Body, db: Comments, newId: string, now: int)
    requires newId !in db
    requires !IsMissing(body, "post_id") && !IsMissing(body, "content")
    ensures var o := Create(me, body, db, newId, now, None);
            o.response.Reply? && Get(newId, o.store, None) == Reply(200, o.response.payload)
  {
  }

  /** After an edit, `GET /comments/:id` returns the edited comment and every other comment reads as before. */
  lemma GetAfterUpdate(me: UserId, id: string, body: Body, db: Comments, now: int)
    requires Update(me, id, body, db, now, None).response.Reply?
    ensures var o := Update(me, id, body, db, now, None);
            && Get(id, o.store, None) == o.response
            && o.response.payload.content == body["content"] && o.response.payload.updatedAt == Some(now)
            && forall k :: k != id ==> Get(k, o.store, None) == Get(k, db, None)
  {
  }
}

=== FILE: http.dfy ===
/** Responses, store failures and the error middleware shared by all route handlers. */
module Http {
  import opened Options

  /** Users are keyed by the store's textual id (`req.params.id` is always text). */
  type UserId = string

  /** What a handler sends: `res.status(s).json(payload)`, `res.status(204).send()`, or `{ error: message }`. */
  datatype Response<T> =
    | Reply(status: int, payload: T)
    | NoContent
    | Error(status: int, message: string)
  {
    function Code(): int {
      match this
      case Reply(s, _) => s
      case NoContent => 204
      case Error(s, _) => s
    }
  }

  /**
   * A failing store call: `Reported` is the `{ error }` a query resolves to (with its
   * PostgREST/Postgres code); `Raised` is an exception thrown out of the call.
   */
  datatype Fault = Reported(code: string, message: string) | Raised(message: string)

  /** PostgREST's code for `.single()` seeing zero (or several) rows. */
  const NoRows := "PGRST116"
  /** Postgres' code for a unique-constraint violation. */
  const UniqueViolation := "23505"
  /** The start of Postgres' message for a write that breaks a unique constraint (the constraint's name follows). */
  const DuplicateKey := "duplicate key value violates unique constraint"
  const InternalServerError := "Internal Server Error"
  /** PostgREST's message for `.single()` on a query that matched no row. */
  const NotSingleRow := "Cannot coerce the result to a single JSON object"

  /**
   * A store failure rethrown by a handler and answered by the error middleware of app.js:
   * status `err.status || 500` (store errors carry none) and `err.message || 'Internal Server Error'`.
   */
  function Rethrown<T>(f: Fault): (r: Response<T>)
    ensures r.Error? && r.status == 500 && r.message != ""
  {
    Error(500, if f.message != "" then f.message else InternalServerError)
  }

  /** How a `.single()` lookup ends when the handler tolerates PGRST116: a failure it rethrows, the row, or no row. */
  datatype Lookup<V> = Faulted(fault: Fault) | Found(row: V) | Absent

  /** A store failure a handler that tolerates PGRST116 still rethrows: anything but a reported "no rows". */
  predicate Fatal(fault: Option<Fault>) {
    fault.Some? && !(fault.value.Reported? && fault.value.code == NoRows)
  }

  /** `if (fetchError && fetchError.code !== 'PGRST116') throw fetchError; if (!data) ...` */
  function Tolerant<K, V>(db: map<K, V>, id: K, fault: Option<Fault>): (l: Lookup<V>)
    ensures l.Found? <==> fault.None? && id in db
    ensures l.Found? ==> l.row == db[id]
    ensures l.Faulted? <==> Fatal(fault)
  {
    if Fatal(fault) then Faulted(fault.value)
    else if fault.None? && id in db then Found(db[id])
    else Absent
  }

  /** A handler's response together with the store as the request leaves it. */
  datatype Outcome<T, S> = Outcome(response: Response<T>, store: S)
}

=== FILE: json.dfy ===
/**
 * Values of parsed JSON request bodies and the JavaScript tests the handlers apply to them.
 * Arrays and objects are not modelled.
 */
module Json {
  import opened Options

  datatype Value = Null | Bool(b: bool) | Num(n: int) | Str(s: string)

  /** A request body; a key absent from the map reads as `undefined`. */
  type Body = map<string, Value>

  /** `body[key]`, with `None` for `undefined`. */
  function Field(body: Body, key: string): Option<Value> {
    if key in body then Some(body[key]) else None
  }

  /** JavaScript truthiness: `undefined`, `null`, `false`, `0` and `''` are falsy. */
  predicate Truthy(v: Option<Value>) {
    match v
    case None => false
    case Some(Null) => false
    case Some(Bool(b)) => b
    case Some(Num(n)) => n != 0
    case Some(Str(s)) => s != ""
  }

  /** Truthiness of an optional string: absent, `null` and `''` are falsy. */
  predicate Filled(s: Option<string>) {
    s.Some? && s.value != ""
  }

  /** Decimal digits of a natural number. */
  function Digits(n: nat): string
    decreases n
  {
    var d := ('0' as int + n % 10) as char;
    if n < 10 then [d] else Digits(n / 10) + [d]
  }

  /** `String(v)`: the text a value becomes in a query filter or a text column. */
  function Text(v: Value): string {
    match v
    case Null => "null"
    case Bool(b) => if b then "true" else "false"
    case Num(n) => if n < 0 then "-" + Digits(-n) else Digits(n)
    case Str(s) => s
  }
}

=== FILE: likes.dfy ===
/** The handlers of server/api/likes.js over the set of (user, post) likes. */
module Likes {
  import opened Options
  import opened Json
  import opened Http
  import opened Utils

  /** A like; `post` is the `post_id` as the store keeps it. */
  datatype Like = Like(user: UserId, post: string)

  type Likes = set<Like>

  datatype LikesPayload =
    /** `{ count }` */
    | Count(n: nat)
    /** `{ items, count }`; the store's row order is not modelled. */
    | Items(items: set<Like>, count: nat)
    /** `{ ok: true }` */
    | AlreadyLiked
    | Created(like: Like)

  /** The likes `GET /likes` selects under its optional `post_id` and `user_id` filters. */
  function Selected(likes: Likes, postId: Option<string>, userId: Option<string>): set<Like> {
    set l | l in likes && (Filled(postId) ==> l.post == postId.value) && (Filled(userId) ==> l.user == userId.value)
  }

  /** `GET /likes?post_id=&user_id=&count=`: only `{ count }` when `count` is exactly `'true'`. */
  function List(likes: Likes, postId: Option<string>, userId: Option<string>, count: Option<string>,
                fault: Option<Fault>): (r: Response<LikesPayload>)
    ensures fault.Some? ==> r.Code() == 500
    ensures fault.None? ==> r.Reply? && r.status == 200
    ensures r.Reply? && r.payload.Items? ==>
              && count != Some("true")
              && (forall l :: l in r.payload.items <==>
                    l in likes && (Filled(postId) ==> l.post == postId.value) && (Filled(userId) ==> l.user == userId.value))
              && r.payload.count == |r.payload.items|
    ensures r.Reply? ==> (r.payload.Count? <==> count == Some("true"))
    ensures r.Reply? && r.payload.Count? ==> r.payload.n == |Selected(likes, postId, userId)|
    ensures fault.None? && count != Some("true") ==>
              r == Reply(200, Items(Selected(likes, postId, userId), |Selected(likes, postId, userId)|))
  {
    if fault.Some? then Rethrown(fault.value)
    else
      var matching := Selected(likes, postId, userId);
      if count == Some("true") then Reply(200, Count(|matching|))
      else Reply(200, Items(matching, |matching|))
  }

  /** `POST /likes`: idempotent; the liking user is always the authenticated one. */
  function Add(me: UserId, body: Body, likes: Likes, fault: Option<Fault>): (o: Outcome<LikesPayload, Likes>)
    ensures IsMissing(body, "post_id") ==> o == Outcome(Error(400, MissingPrefix + "post_id"), likes)
    ensures o.store != likes ==>
              && !IsMissing(body, "post_id") && Like(me, Text(body["post_id"])) !in likes
              && o.store == likes + {Like(me, Text(body["post_id"]))}
    ensures !IsMissing(body, "post_id") && fault.None? ==>
              && Like(me, Text(body["post_id"])) in o.store
              && o.store == likes + {Like(me, Text(body["post_id"]))}
    ensures !IsMissing(body, "post_id") && fault.None? && Like(me, Text(body["post_id"])) in likes
            ==> o == Outcome(Reply(200, AlreadyLiked), likes)
    ensures !IsMissing(body, "post_id") && fault.None? && Like(me, Text(body["post_id"])) !in likes
            ==> o.response == Reply(201, Created(Like(me, Text(body["post_id"]))))
    ensures fault.Some? ==> o.store == likes
    ensures !IsMissing(body, "post_id") && fault.Some? ==> o.response.Code() == 500
  {
    match RequireFields(body, ["post_id"])
    case Invalid(status, message) =>
      MissingSingle(body, "post_id");
      Outcome(Error(status, message), likes)
    case Valid =>
      var like := Like(me, Text(body["post_id"]));
      if fault.Some? then Outcome(Rethrown(fault.value), likes)
      else if like in likes then Outcome(Reply(200, AlreadyLiked), likes)
      else Outcome(Reply(201, Created(like)), likes + {like})
  }

  /** `DELETE /likes`: removes the caller's like of `post_id`, answering 204 whether or not it existed. */
  function Remove(me: UserId, body: Body, likes: Likes, fault: Option<Fault>): (o: Outcome<LikesPayload, Likes>)
    ensures IsMissing(body, "post_id") ==> o == Outcome(Error(400, MissingPrefix + "post_id"), likes)
    ensures !IsMissing(body, "post_id") && fault.None? ==>
              o == Outcome(NoContent, likes - {Like(me, Text(body["post_id"]))})
    ensures forall l :: l in likes && l != Like(me, Text(Field(body, "post_id").GetOr(Null))) ==> l in o.store
    ensures o.store <= likes
    ensures fault.Some? ==> o.store == likes
    ensures !IsMissing(body, "post_id") && fault.Some? ==> o.response.Code() == 500
  {
    match RequireFields(body, ["post_id"])
    case Invalid(status, message) =>
      MissingSingle(body, "post_id");
      Outcome(Error(status, message), likes)
    case Valid =>
      if fault.Some? then Outcome(Rethrown(fault.value), likes)
      else Outcome(NoContent, likes - {Like(me, Text(body["post_id"]))})
  }

  /** Liking twice is liking once. */
  lemma AddIdempotent(me: UserId, body: Body, likes: Likes)
    ensures var once := Add(me, body, likes, None).store;
            Add(me, body, once, None).store == once
  {
  }

  /** Unliking undoes a like that was not there before; liking again restores a removed one. */
  lemma AddRemoveRoundTrip(me: UserId, body: Body, likes: Likes)
    requires !IsMissing(body, "post_id")
    ensures Remove(me, body, Add(me, body, likes, None).store, None).store == likes - {Like(me, Text(body["post_id"]))}
    ensures Like(me, Text(body["post_id"])) in likes ==>
              Add(me, body, Remove(me, body, likes, None).store, None).store == likes
  {
  }

  /** Unliking twice is unliking once. */
  lemma RemoveIdempotent(me: UserId, body: Body, likes: Likes)
    ensures var once := Remove(me, body, likes, None).store;
            Remove(me, body, once, None) == Remove(me, body, likes, None).(store := once)
  {
    if !IsMissing(body, "post_id") {
      var like := Like(me, Text(body["post_id"]));
      assert (likes - {like}) - {like} == likes - {like};
    }
  }

  /**
   * After a like, the post's like list holds the pair, and its count grew by one exactly when the
   * pair is new.
   */
  lemma ListAfterAdd(me: UserId, body: Body, likes: Likes)
    requires !IsMissing(body, "post_id")
    ensures var like := Like(me, Text(body["post_id"]));
            var after := Add(me, body, likes, None).store;
            && like in List(after, Some(like.post), None, None, None).payload.items
            && List(after, Some(like.post), None, Some("true"), None).payload.n
               == List(likes, Some(like.post), None, Some("true"), None).payload.n + (if like in likes then 0 else 1)
  {
    var like := Like(me, Text(body["post_id"]));
    var after := Add(me, body, likes, None).store;
    assert Selected(after, Some(like.post), None) == Selected(likes, Some(like.post), None) + {like};
  }
}

=== FILE: listing.dfy ===
/**
 * The list queries' `.order('created_at', { ascending: false }).range(offset, offset + limit - 1)`:
 * a set of rows put newest first, then cut to an index window.
 */
module Listing {

  /** The `{ items, count, limit, offset }` body of a list endpoint. */
  datatype Page<T> = Page(items: seq<T>, count: nat, limit: int, offset: nat)

  ghost predicate SortedDesc<T>(rows: seq<T>, key: T -> int) {
    forall i, j :: 0 <= i < j < |rows| ==> key(rows[i]) >= key(rows[j])
  }

  ghost predicate Distinct<T>(rows: seq<T>) {
    forall i, j :: 0 <= i < j < |rows| ==> rows[i] != rows[j]
  }

  /** `rows` lists every element of `s` exactly once, largest key first. */
  ghost predicate Lists<T(!new)>(rows: seq<T>, s: set<T>, key: T -> int) {
    && SortedDesc(rows, key)
    && Distinct(rows)
    && (forall x :: x in rows <==> x in s)
  }

  /** Every non-empty finite set has an element of largest key. */
  lemma {:induction false} MaxExists<T>(s: set<T>, key: T -> int)
    requires s != {}
    ensures exists m :: m in s && forall x :: x in s ==> key(x) <= key(m)
    decreases |s|
  {
    var y :| y in s;
    var rest := s - {y};
    if rest == {} {
      assert s == {y};
    } else {
      MaxExists(rest, key);
      var m :| m in rest && forall x :: x in rest ==> key(x) <= key(m);
      assert forall x :: x in s ==> x == y || x in rest;
    }
  }

  /** Orders a set newest first by repeatedly taking an element of largest key. */
  method SortDesc<T(==,!new)>(s: set<T>, key: T -> int) returns (rows: seq<T>)
    ensures Lists(rows, s, key)
  {
    rows := [];
    var rest := s;
    while rest != {}
      invariant rest <= s
      invariant SortedDesc(rows, key)
      invariant Distinct(rows)
      invariant forall x :: x in rows <==> x in s && x !in rest
      invariant forall i, x :: 0 <= i < |rows| && x in rest ==> key(x) <= key(rows[i])
      decreases rest
    {
      MaxExists(rest, key);
      var m :| m in rest && forall x :: x in rest ==> key(x) <= key(m);
      rows := rows + [m];
      rest := rest - {m};
    }
  }

  /** The rows at indices `offset .. offset + limit - 1` that exist; none when `limit` is not positive. */
  function Window<T>(rows: seq<T>, offset: nat, limit: int): (page: seq<T>)
    ensures |page| == if limit <= 0 || offset >= |rows| then 0
                      else if offset + limit <= |rows| then limit else |rows| - offset
    ensures forall i :: 0 <= i < |page| ==> page[i] == rows[offset + i]
  {
    if limit <= 0 || offset >= |rows| then []
    else if offset + limit <= |rows| then rows[offset..offset + limit]
    else rows[offset..]
  }

  /** A window of a listing is itself newest first and holds only listed elements. */
  lemma WindowOfListing<T(!new)>(rows: seq<T>, s: set<T>, key: T -> int, offset: nat, limit: int)
    requires Lists(rows, s, key)
    ensures SortedDesc(Window(rows, offset, limit), key)
    ensures forall x :: x in Window(rows, offset, limit) ==> x in s
    ensures |Window(rows, offset, limit)| <= |s|
  {
    var page := Window(rows, offset, limit);
    forall x | x in page ensures x in s {
      var i :| 0 <= i < |page| && page[i] == x;
      assert page[i] == rows[offset + i];
    }
    DistinctBound(rows, s);
  }

  /** A duplicate-free listing of a set is no longer than the set. */
  lemma {:induction false} DistinctBound<T>(rows: seq<T>, s: set<T>)
    requires Distinct(rows)
    requires forall x :: x in rows ==> x in s
    ensures |rows| <= |s|
    decreases |rows|
  {
    if rows != [] {
      var last := rows[|rows| - 1];
      var init := rows[..|rows| - 1];
      assert forall x :: x in init ==> x in rows && x != last;
      DistinctBound(init, s - {last});
    }
  }
}

=== FILE: options.dfy ===
/** The optional value used for nullable columns, optional query parameters and lookups. */
module Options {

  datatype Option<+T> = None | Some(value: T) {

    /** The wrapped value, or `default` when there is none (JavaScript's `x ?? default`). */
    function GetOr(default: T): T {
      match this
      case Some(v) => v
      case None => default
    }
  }
}

=== FILE: otp.dfy ===
/**
 * The time-step window of `speakeasy.totp.verify({ window: 2 })` (section 5.2 of RFC 6238):
 * a code is accepted when it equals the TOTP code of any counter within two steps of now.
 */
module Otp {

  /** Seconds per time step (section 4 of RFC 6238, X = 30). */
  const Step := 30
  /** Steps tolerated on each side of the current one. */
  const Window := 2

  /** The current time-step counter, floor(now / 30); Dafny's `/` floors for a positive divisor. */
  function Counter(now: int): int {
    now / Step
  }

  /** Tries counters `lo, lo + 1, ..., hi` in turn, as `hotp.verifyDelta` does. */
  function Scan(totp: (string, int) -> string, secret: string, code: string, lo: int, hi: int): (found: bool)
    ensures found <==> exists k :: lo <= k <= hi && totp(secret, k) == code
    decreases if lo <= hi then hi - lo + 1 else 0
  {
    if lo > hi then false
    else if totp(secret, lo) == code then true
    else Scan(totp, secret, code, lo + 1, hi)
  }

  /** Whether `code` is accepted at time `now` for `secret`. */
  function Accepts(totp: (string, int) -> string, secret: string, code: string, now: int): (ok: bool)
    ensures ok <==> exists k :: Counter(now) - Window <= k <= Counter(now) + Window && totp(secret, k) == code
  {
    Scan(totp, secret, code, Counter(now) - Window, Counter(now) + Window)
  }

  /** A code from one to two steps away on either side is still accepted. */
  lemma DriftTolerated(totp: (string, int) -> string, secret: string, now: int, d: int)
    requires -Window <= d <= Window
    ensures Accepts(totp, secret, totp(secret, Counter(now) + d), now)
  {
    var k := Counter(now) + d;
    assert Counter(now) - Window <= k <= Counter(now) + Window && totp(secret, k) == totp(secret, k);
  }

  /**
   * A code that matches only a counter three or more steps away is rejected. The second requires
   * carries the content: no counter inside the window happens to produce the same code.
   */
  lemma FarDriftRejected(totp: (string, int) -> string, secret: string, now: int, d: int)
    requires d < -Window || Window < d
    requires forall k :: Counter(now) - Window <= k <= Counter(now) + Window ==> totp(secret, k) != totp(secret, Counter(now) + d)
    ensures !Accepts(totp, secret, totp(secret, Counter(now) + d), now)
  {
  }
}

=== FILE: passport.dfy ===
/**
 * The bearer guard of server/auth/passport.js: the JWT strategy verifies the bearer token,
 * then the verify callback refuses pending tokens and loads the user the token names.
 */
module Passport {
  import opened Options
  import opened Http
  import opened Tokens
  import opened UserStore

  const PendingRefused := "Token temporaneo non valido per questa operazione"
  const UserNotFound := "Utente non trovato"
  /** passport-jwt's own failure when no token can be extracted or verified; answered with 401. */
  const NoValidToken := "Unauthorized"

  /** `done(null, user)`, `done(null, false, info)` and `done(err, false)`. */
  datatype Verdict = Authenticated(user: User) | Rejected(message: string) | Failed(fault: Fault)

  /** The verify callback, given the decoded payload. */
  function CheckPayload(claims: Claims, db: Users, fault: Option<Fault>): (v: Verdict)
    ensures claims.Pending? ==> v == Rejected(PendingRefused)
    ensures v.Authenticated? <==> claims.Final? && fault.None? && claims.id in db
    ensures v.Authenticated? ==> v.user == db[claims.id]
    ensures v.Failed? <==> claims.Final? && fault.Some? && fault.value.Raised?
  {
    if claims.Pending? then Rejected(PendingRefused)
    else match fault
      case Some(Raised(m)) => Failed(fault.value)
      case Some(Reported(_, _)) => Rejected(UserNotFound)
      case None => if claims.id in db then Authenticated(db[claims.id]) else Rejected(UserNotFound)
  }

  /** The whole guard for a request carrying `bearer` (`None` when the header holds no bearer token). */
  function Authenticate(key: string, now: int, bearer: Option<Token>, db: Users, fault: Option<Fault>): (v: Verdict)
    ensures v.Authenticated? <==>
              && bearer.Some? && Verify(key, now, bearer.value).Some?
              && bearer.value.claims.Final? && fault.None? && bearer.value.claims.id in db
    ensures v.Authenticated? ==> v.user == db[bearer.value.claims.id]
    ensures bearer.None? || Verify(key, now, bearer.value).None? ==> v == Rejected(NoValidToken)
    ensures v.Failed? <==>
              && bearer.Some? && Verify(key, now, bearer.value).Some?
              && bearer.value.claims.Final? && fault.Some? && fault.value.Raised?
  {
    if bearer.None? then Rejected(NoValidToken)
    else match Verify(key, now, bearer.value)
      case None => Rejected(NoValidToken)
      case Some(claims) => CheckPayload(claims, db, fault)
  }

  /** A pending token never passes, whatever the store holds and whether or not it is reachable. */
  lemma PendingNeverPasses(key: string, now: int, t: Token, db: Users, fault: Option<Fault>)
    requires t.claims.Pending?
    ensures !Authenticate(key, now, Some(t), db, fault).Authenticated?
    ensures Authenticate(key, now, Some(t), db, fault).Rejected?
  {
  }

  /** The pending-token check is made before any lookup: its verdict does not depend on the store. */
  lemma PendingDecidedWithoutStore(c: Claims, db1: Users, f1: Option<Fault>, db2: Users, f2: Option<Fault>)
    requires c.Pending?
    ensures CheckPayload(c, db1, f1) == CheckPayload(c, db2, f2)
  {
  }

  /** A store exception is reported as a failure, never as a silent rejection or a pass. */
  lemma ExceptionIsFailure(key: string, now: int, t: Token, db: Users, m: string)
    requires Verify(key, now, t).Some? && t.claims.Final?
    ensures Authenticate(key, now, Some(t), db, Some(Raised(m))) == Failed(Raised(m))
  {
  }
}

=== FILE: posts.dfy ===
/** The handlers of server/api/posts.js. Protected routes receive `me`, the id of the user the guard attached. */
module Posts {
  import opened Options
  import opened Json
  import opened Http
  import opened Utils
  import opened Listing

  datatype Post = Post(id: string, author: UserId, content: Value, createdAt: int)

  type Posts = map<string, Post>

  const NothingToUpdate := "Nessun campo valido (\"content\") fornito per l'aggiornamento."
  const PostNotFound := "Post non trovato"
  const CannotEdit := "Non sei autorizzato a modificare questo post."
  const CannotDelete := "Non sei autorizzato a cancellare questo post."

  function CreatedAt(p: Post): int {
    p.createdAt
  }

  /** The posts `GET /posts` selects: all, or those of `user_id` when that parameter is truthy. */
  function Selected(db: Posts, userId: Option<string>): set<Post> {
    set p | p in db.Values && (Filled(userId) ==> p.author == userId.value)
  }

  /** `GET /posts?limit=&offset=&user_id=`: the matching posts newest first, cut to the requested window. */
  method List(db: Posts, limit: Option<int>, offset: Option<int>, userId: Option<string>, fault: Option<Fault>)
    returns (r: Response<Page<Post>>)
    ensures fault.Some? ==> r.Code() == 500
    ensures fault.None? ==>
              var p := Paginate(limit, offset);
              && r.Reply? && r.status == 200
              && r.payload.limit == p.limit && r.payload.offset == p.offset
              && r.payload.count == |Selected(db, userId)|
              && exists rows :: Lists(rows, Selected(db, userId), CreatedAt) && r.payload.items == Window(rows, p.offset, p.limit)
  {
    var p := Paginate(limit, offset);
    if fault.Some? {
      return Rethrown(fault.value);
    }
    var matching := Selected(db, userId);
    var rows := SortDesc(matching, CreatedAt);
    r := Reply(200, Page(Window(rows, p.offset, p.limit), |matching|, p.limit, p.offset));
  }

  /** `GET /posts/:id`. */
  function Get(id: string, db: Posts, fault: Option<Fault>): (r: Response<Post>)
    ensures fault.None? ==> r == if id in db then Reply(200, db[id]) else Error(404, PostNotFound)
    ensures fault.Some? && fault.value.Reported? && fault.value.code == NoRows ==> r == Error(404, PostNotFound)
    ensures Fatal(fault) ==> r.Code() == 500
  {
    match Tolerant(db, id, fault)
    case Faulted(f) => Rethrown(f)
    case Absent => Error(404, PostNotFound)
    case Found(post) => Reply(200, post)
  }

  /** `POST /posts`: `content` is required; the author is always the authenticated user. */
  function Create(me: UserId, body: Body, db: Posts, newId: string, now: int, fault: Option<Fault>): (o: Outcome<Post, Posts>)
    requires newId !in db
    ensures IsMissing(body, "content") ==> o == Outcome(Error(400, MissingPrefix + "content"), db)
    ensures o.response.Code() == 201 <==> !IsMissing(body, "content") && fault.None?
    ensures o.response.Code() != 201 ==> o.store == db
    ensures !IsMissing(body, "content") && fault.Some? ==> o.response.Code() == 500
    ensures o.response.Code() == 201 ==>
              && o.response.Reply?
              && o.response.payload == Post(newId, me, body["content"], now)
              && o.store == db[newId := o.response.payload]
  {
    match RequireFields(body, ["content"])
    case Invalid(status, message) =>
      MissingSingle(body, "content");
      Outcome(Error(status, message), db)
    case Valid =>
      if fault.Some? then Outcome(Rethrown(fault.value), db)
      else
        var post := Post(newId, me, body["content"], now);
        Outcome(Reply(201, post), db[newId := post])
  }

  /** `PATCH /posts/:id`: a truthy `content`, then existence, then authorship, then the update of `content` alone. */
  function Update(me: UserId, id: string, body: Body, db: Posts, fault: Option<Fault>): (o: Outcome<Post, Posts>)
    ensures !Truthy(Field(body, "content")) ==> o == Outcome(Error(400, NothingToUpdate), db)
    ensures Truthy(Field(body, "content")) && fault.None? && id !in db ==> o == Outcome(Error(404, PostNotFound), db)
    ensures Truthy(Field(body, "content")) && fault.None? && id in db && db[id].author != me
            ==> o == Outcome(Error(403, CannotEdit), db)
    ensures o.store != db ==> id in db && db[id].author == me && fault.None?
    ensures o.response.Reply? ==>
              && fault.None? && id in db && db[id].author == me
              && o.response.payload == db[id].(content := body["content"])
              && o.store == db[id := o.response.payload]
    ensures Truthy(Field(body, "content")) && fault.None? && id in db && db[id].author == me ==> o.response.Reply?
    ensures Truthy(Field(body, "content")) && fault.Some? && !Fatal(fault) ==> o == Outcome(Error(404, PostNotFound), db)
    ensures Truthy(Field(body, "content")) && Fatal(fault) ==> o.response.Code() == 500 && o.store == db
  {
    if !Truthy(Field(body, "content")) then Outcome(Error(400, NothingToUpdate), db)
    else match Tolerant(db, id, fault)
      case Faulted(f) => Outcome(Rethrown(f), db)
      case Absent => Outcome(Error(404, PostNotFound), db)
      case Found(post) =>
        if post.author != me then Outcome(Error(403, CannotEdit), db)
        else
          var updated := post.(content := body["content"]);
          Outcome(Reply(200, updated), db[id := updated])
  }

  /** `DELETE /posts/:id`: 204 when the post is already gone, 403 for anyone but its author. */
  function Delete(me: UserId, id: string, db: Posts, fault: Option<Fault>): (o: Outcome<Post, Posts>)
    ensures fault.None? && id !in db ==> o == Outcome(NoContent, db)
    ensures fault.Some? && !Fatal(fault) ==> o == Outcome(NoContent, db)
    ensures Fatal(fault) ==> o.response.Code() == 500 && o.store == db
    ensures fault.None? && id in db && db[id].author != me ==> o == Outcome(Error(403, CannotDelete), db)
    ensures fault.None? && id in db && db[id].author == me ==> o == Outcome(NoContent, db - {id})
    ensures o.store != db ==> id in db && db[id].author == me && o.store == db - {id}
  {
    match Tolerant(db, id, fault)
    case Faulted(f) => Outcome(Rethrown(f), db)
    case Absent => Outcome(NoContent, db)
    case Found(post) =>
      if post.author != me then Outcome(Error(403, CannotDelete), db)
      else Outcome(NoContent, db - {id})
  }

  /** The author comes from the token: two bodies with the same `content` create the same post, whatever else they say. */
  lemma AuthorNotFromBody(me: UserId, b1: Body, b2: Body, db: Posts, newId: string, now: int, fault: Option<Fault>)
    requires newId !in db
    requires Field(b1, "content") == Field(b2, "content")
    ensures Create(me, b1, db, newId, now, fault) == Create(me, b2, db, newId, now, fault)
  {
    assert IsMissing(b1, "content") == IsMissing(b2, "content");
    MissingSingle(b1, "content");
    MissingSingle(b2, "content");
  }

  /** Deleting twice is deleting once: the repeat answers 204 and changes nothing. */
  lemma DeleteIdempotent(me: UserId, id: string, db: Posts)
    requires Delete(me, id, db, None).response == NoContent
    ensures var once := Delete(me, id, db, None).store;
            Delete(me, id, once, None) == Outcome(NoContent, once)
  {
  }

  /** Repeating an update leaves the store as the first one did. */
  lemma UpdateIdempotent(me: UserId, id: string, body: Body, db: Posts)
    requires Update(me, id, body, db, None).response.Reply?
    ensures var once := Update(me, id, body, db, None).store;
            Update(me, id, body, once, None).store == once
  {
  }

  /** A created post is what `GET /posts/:id` then returns. */
  lemma GetAfterCreate(me: UserId, body: Body, db: Posts, newId: string, now: int)
    requires newId !in db
    requires !IsMissing(body, "content")
    ensures var o := Create(me, body, db, newId, now, None);
            o.response.Reply? && Get(newId, o.store, None) == Reply(200, o.response.payload)
  {
  }

  /** After an update, `GET /posts/:id` returns the edited post and every other post reads as before. */
  lemma GetAfterUpdate(me: UserId, id: string, body: Body, db: Posts)
    requires Update(me, id, body, db, None).response.Reply?
    ensures var o := Update(me, id, body, db, None);
            && Get(id, o.store, None) == o.response
            && forall k :: k != id ==> Get(k, o.store, None) == Get(k, db, None)
  {
  }
}

=== FILE: primitives.dfy ===
/**
 * The foreign libraries the handlers call — bcrypt, speakeasy's TOTP and otpauth URL builder —
 * as uninterpreted functions. Randomness (salts, fresh secrets) is passed to handlers as values.
 */
module Primitives {

  datatype Crypto = Crypto(
    /** `bcrypt.hash(password, salt)` */
    hash: (string, string) -> string,
    /** `bcrypt.compare(password, hash)` */
    compare: (string, string) -> bool,
    /** The TOTP code of a base32 secret at a 30-second time-step counter. */
    totp: (string, int) -> string,
    /** `speakeasy.otpauthURL({ secret, label, issuer })` */
    otpauthUrl: (string, string, string) -> string)

  /** bcrypt's own promise: a password matches any hash made from it. */
  ghost predicate HashSound(c: Crypto) {
    forall p, s :: c.compare(p, c.hash(p, s))
  }

  /** A secret as `speakeasy.generateSecret({ length: 20 }).base32` returns it: 32 base32 characters, never empty. */
  type Secret = s: string | s != "" witness "A"
}

=== FILE: tokens.dfy ===
/**
 * Signed session tokens (JSON Web Tokens, RFC 7519). Signature computation is not modelled:
 * a token records the key it was signed with, and verification compares keys and checks expiry.
 */
module Tokens {
  import opened Options
  import opened Http

  /** `'24h'`, in seconds. */
  const FinalTtl := 86400
  /** `'5m'`, in seconds. */
  const PendingTtl := 300

  /**
   * The two payload shapes the handlers sign; the presence of `step: 'otp_pending'` chooses `Pending`.
   * `exp` is the expiry claim (section 4.1.4 of RFC 7519) in seconds; `name` is a final token's
   * optional `username` claim.
   */
  datatype Claims =
    | Pending(id: UserId, username: string, exp: int)
    | Final(id: UserId, name: Option<string>, email: Option<string>, exp: int)

  datatype Token = Token(claims: Claims, signer: string)

  /** `jwt.sign(claims, key)`. */
  function Sign(key: string, claims: Claims): Token {
    Token(claims, key)
  }

  /** `jwt.verify(token, key)`: the claims when the signature checks and the token has not expired. */
  function Verify(key: string, now: int, t: Token): (r: Option<Claims>)
    ensures r.Some? <==> t.signer == key && now < t.claims.exp
    ensures r.Some? ==> r.value == t.claims
  {
    if t.signer == key && now < t.claims.exp then Some(t.claims) else None
  }

  /**
   * Signing then verifying with the same key before expiry gives back the claims; any other key
   * fails, and so does every time from `exp` on.
   */
  lemma SignVerify(key: string, other: string, now: int, later: int, c: Claims)
    requires now < c.exp
    requires other != key
    requires later >= c.exp
    ensures Verify(key, now, Sign(key, c)) == Some(c)
    ensures Verify(other, now, Sign(key, c)) == None
    ensures Verify(key, later, Sign(key, c)) == None
  {
  }
}

=== FILE: users.dfy ===
/**
 * The profile handlers of server/api/users.js: reading one profile, the whitelisted self-update and
 * self-deletion. Protected routes receive `me`, the id of the user the guard attached.
 */
module Users {
  import opened Options
  import opened Json
  import opened Http
  import opened UserStore
  import opened Tokens
  import Passport

  const UserNotFound := "Utente non trovato."
  const DatabaseError := "Errore del database."
  const CannotEdit := "Non sei autorizzato a modificare questo profilo."
  const NothingToUpdate := "Nessun campo valido fornito per l'aggiornamento."
  const NameInUse := "Username o email già in uso."
  const UpdateFailed := "Errore durante l'aggiornamento dell'utente."
  const CannotDelete := "Non sei autorizzato a cancellare questo profilo."
  const DeleteFailed := "Errore durante la cancellazione dell'utente."

  /** The columns of `USER_SELECT_FIELDS`: no password hash, salt or OTP secret. */
  datatype Profile = Profile(id: UserId, username: string, email: string, bio: Option<string>, createdAt: int)

  function Project(u: User): Profile {
    Profile(u.id, u.username, u.email, u.bio, u.createdAt)
  }

  /** `GET /users/:id`: PGRST116 (no such row) becomes 404, any other store error 500. */
  function Get(id: UserId, db: Users, fault: Option<Fault>): (r: Response<Profile>)
    ensures fault.None? ==> r == if id in db then Reply(200, Project(db[id])) else Error(404, UserNotFound)
    ensures fault.Some? && fault.value.Reported? ==>
              r == if fault.value.code == NoRows then Error(404, UserNotFound) else Error(500, DatabaseError)
    ensures fault.Some? && fault.value.Raised? ==> r.Code() == 500
  {
    var failure := if fault.Some? then fault else if id !in db then Some(Reported(NoRows, NotSingleRow)) else None;
    match failure
    case Some(Raised(_)) => Rethrown(failure.value)
    case Some(Reported(code, _)) => if code == NoRows then Error(404, UserNotFound) else Error(500, DatabaseError)
    case None => Reply(200, Project(db[id]))
  }

  /** The fields a profile update copies from the body. */
  datatype Changes = Changes(username: Option<string>, bio: Option<string>)

  /** `if (updateData.username) ...; if (updateData.bio) ...`: only truthy `username` and `bio`. */
  function Whitelist(body: Body): (ch: Changes)
    ensures ch.username.Some? <==> Truthy(Field(body, "username"))
    ensures ch.bio.Some? <==> Truthy(Field(body, "bio"))
    ensures ch.username.Some? ==> ch.username.value == Text(body["username"])
    ensures ch.bio.Some? ==> ch.bio.value == Text(body["bio"])
  {
    Changes(if Truthy(Field(body, "username")) then Some(Text(body["username"])) else None,
            if Truthy(Field(body, "bio")) then Some(Text(body["bio"])) else None)
  }

  /** The row after `.update(dataToUpdate)`. */
  function Apply(u: User, ch: Changes): User {
    u.(username := ch.username.GetOr(u.username), bio := if ch.bio.Some? then ch.bio else u.bio)
  }

  /** The error `.update(...).eq('id', id).select(...).single()` resolves to, if any. */
  function UpdateFailure(db: Users, id: UserId, ch: Changes, fault: Option<Fault>): Option<Fault> {
    if fault.Some? then fault
    else if id !in db then Some(Reported(NoRows, NotSingleRow))
    else if ch.username.Some? && UsernameTaken(db, id, ch.username.value) then Some(Reported(UniqueViolation, DuplicateKey))
    else None
  }

  /** `PATCH /users/:id`: only the owner, only whitelisted fields; 23505 becomes 409, any other store error 500. */
  function Patch(me: UserId, id: UserId, body: Body, db: Users, fault: Option<Fault>): (o: Outcome<Profile, Users>)
    ensures id != me ==> o == Outcome(Error(403, CannotEdit), db)
    ensures id == me && Whitelist(body) == Changes(None, None) ==> o == Outcome(Error(400, NothingToUpdate), db)
    ensures o.store != db ==>
              && id == me && fault.None? && id in db
              && o.store == db[id := Apply(db[id], Whitelist(body))]
    ensures o.response.Reply? ==>
              && id == me && fault.None? && id in db
              && o.response.payload == Project(Apply(db[id], Whitelist(body)))
              && o.store == db[id := Apply(db[id], Whitelist(body))]
    ensures (id == me && Whitelist(body).username.Some? && fault.None? && id in db
             && UsernameTaken(db, id, Whitelist(body).username.value)) ==> o == Outcome(Error(409, NameInUse), db)
    ensures (id == me && Whitelist(body) != Changes(None, None) && fault.Some? && fault.value.Reported?) ==>
              o == Outcome(Error(if fault.value.code == UniqueViolation then 409 else 500,
                                 if fault.value.code == UniqueViolation then NameInUse else UpdateFailed), db)
    ensures (id == me && Whitelist(body) != Changes(None, None) && fault.Some? && fault.value.Raised?) ==>
              o.response.Code() == 500 && o.store == db
    ensures (id == me && Whitelist(body) != Changes(None, None) && fault.None? && id !in db) ==>
              o == Outcome(Error(500, UpdateFailed), db)
    ensures (id == me && Whitelist(body) != Changes(None, None) && fault.None? && id in db
             && !(Whitelist(body).username.Some? && UsernameTaken(db, id, Whitelist(body).username.value))) ==>
              o.response.Reply? && o.response.status == 200
  {
    if id != me then Outcome(Error(403, CannotEdit), db)
    else
      var ch := Whitelist(body);
      if ch == Changes(None, None) then Outcome(Error(400, NothingToUpdate), db)
      else
        var failure := UpdateFailure(db, id, ch, fault);
        match failure
        case Some(Raised(_)) => Outcome(Rethrown(failure.value), db)
        case Some(Reported(code, _)) =>
          if code == UniqueViolation then Outcome(Error(409, NameInUse), db)
          else Outcome(Error(500, UpdateFailed), db)
        case None =>
          var row := Apply(db[id], ch);
          Outcome(Reply(200, Project(row)), db[id := row])
  }

  /** `DELETE /users/:id`: only the owner; the row goes and the answer is 204. */
  function Delete(me: UserId, id: UserId, db: Users, fault: Option<Fault>): (o: Outcome<Profile, Users>)
    ensures id != me ==> o == Outcome(Error(403, CannotDelete), db)
    ensures id == me && fault.None? ==> o == Outcome(NoContent, db - {id})
    ensures o.store != db ==> id == me && o.store == db - {id}
    ensures fault.Some? ==> o.store == db
    ensures id == me && fault.Some? ==> o.response.Code() == 500
    ensures id == me && fault.Some? && fault.value.Reported? ==> o.response == Error(500, DeleteFailed)
  {
    if id != me then Outcome(Error(403, CannotDelete), db)
    else match fault
      case Some(Raised(_)) => Outcome(Rethrown(fault.value), db)
      case Some(Reported(_, _)) => Outcome(Error(500, DeleteFailed), db)
      case None => Outcome(NoContent, db - {id})
  }

  /** The profile never reveals credentials: rows differing only in hash, salt or secret read the same. */
  lemma ProfileHidesCredentials(id: UserId, db: Users, hash: string, salt: string, secret: Option<string>,
                                fault: Option<Fault>)
    requires id in db
    ensures Get(id, db[id := db[id].(passwordHash := hash, salt := salt, otpSecret := secret)], fault) == Get(id, db, fault)
  {
  }

  /** Fields other than `username` and `bio` are ignored. */
  lemma PatchIgnoresOtherFields(me: UserId, id: UserId, b1: Body, b2: Body, db: Users, fault: Option<Fault>)
    requires Field(b1, "username") == Field(b2, "username") && Field(b1, "bio") == Field(b2, "bio")
    ensures Patch(me, id, b1, db, fault) == Patch(me, id, b2, db, fault)
  {
    assert Whitelist(b1) == Whitelist(b2);
  }

  /** A profile update keeps usernames and emails unique. */
  lemma PatchPreservesWellFormed(me: UserId, id: UserId, body: Body, db: Users, fault: Option<Fault>)
    requires WellFormed(db)
    ensures WellFormed(Patch(me, id, body, db, fault).store)
  {
    var o := Patch(me, id, body, db, fault);
    if o.store != db {
      var row := o.store[id];
      assert forall k :: k in db && k != id ==> db[k].username != row.username;
    }
  }

  /** Deleting one's profile twice is deleting it once: the repeat answers 204 and changes nothing. */
  lemma DeleteIdempotent(me: UserId, db: Users)
    ensures var once := Delete(me, me, db, None).store;
            Delete(me, me, once, None) == Outcome(NoContent, once)
  {
    var once := Delete(me, me, db, None).store;
    assert once - {me} == once;
  }

  /** Once the profile is deleted, no token naming it passes the guard, not even a live session. */
  lemma DeletedUserLocksOut(me: UserId, db: Users, key: string, now: int, t: Token)
    requires t.claims.id == me
    ensures !Passport.Authenticate(key, now, Some(t), Delete(me, me, db, None).store, None).Authenticated?
  {
  }
}

=== FILE: userstore.dfy ===
/**
 * The `users` table as the handlers see it through their queries: a finite map from id to row,
 * with the table's unique constraints on username and email.
 */
module UserStore {
  import opened Options
  import opened Http

  datatype User = User(
    id: UserId,
    username: string,
    email: string,
    passwordHash: string,
    salt: string,
    otpSecret: Option<string>,
    bio: Option<string>,
    createdAt: int)

  type Users = map<UserId, User>

  /** Rows are stored under their own id, and usernames and emails are unique. */
  ghost predicate WellFormed(db: Users) {
    && (forall k :: k in db ==> db[k].id == k)
    && (forall a, b :: a in db && b in db && db[a].username == db[b].username ==> a == b)
    && (forall a, b :: a in db && b in db && db[a].email == db[b].email ==> a == b)
  }

  /** Two members of a one-element set are equal. */
  lemma SingletonMembers<T>(s: set<T>)
    requires |s| == 1
    ensures forall a, b :: a in s && b in s ==> a == b
  {
    forall a, b | a in s && b in s
      ensures a == b
    {
      assert |s - {a}| == 0;
      assert b !in s - {a};
    }
  }

  /** The element of a one-element set. */
  function TheOnly<T(==)>(s: set<T>): (x: T)
    requires |s| == 1
    ensures s == {x}
  {
    SingletonMembers(s);
    var x :| x in s; x
  }

  /** Ids of the rows whose username is `username`. */
  function WithUsername(db: Users, username: string): set<UserId> {
    set k | k in db && db[k].username == username
  }

  /** `.eq('username', username).single()`: a row only when exactly one matches. */
  function FindByUsername(db: Users, username: string): (r: Option<User>)
    ensures r.Some? <==> |WithUsername(db, username)| == 1
    ensures r.Some? ==> exists k :: k in db && db[k] == r.value && r.value.username == username
  {
    var ks := WithUsername(db, username);
    if |ks| == 1 then
      var k := TheOnly(ks);
      assert k in ks;
      Some(db[k])
    else None
  }

  /** In a well-formed store a login name finds its own row. */
  lemma FindByUsernameFinds(db: Users, k: UserId)
    requires WellFormed(db)
    requires k in db
    ensures FindByUsername(db, db[k].username) == Some(db[k])
  {
    var ks := WithUsername(db, db[k].username);
    assert ks == {k};
  }

  /** Whether a row other than `self` already holds `username` (the username unique constraint). */
  predicate UsernameTaken(db: Users, self: UserId, username: string) {
    exists k :: k in db && k != self && db[k].username == username
  }

  /** Whether a row other than `self` already holds `username` or `email` (both unique constraints). */
  predicate Clashes(db: Users, self: UserId, username: string, email: string) {
    UsernameTaken(db, self, username) || exists k :: k in db && k != self && db[k].email == email
  }
}

=== FILE: utils.dfy ===
/** The request helpers of server/utils.js (duplicated verbatim in server/api/users.js). */
module Utils {
  import opened Options
  import opened Json

  /** `obj?.[f] == null || obj[f] === ''`: undefined, null or the empty string. */
  predicate IsMissing(body: Body, field: string) {
    field !in body || body[field] == Null || body[field] == Str("")
  }

  /** `fields.filter(f => <missing>)`: the listed fields that are missing, in the order listed. */
  function Missing(body: Body, fields: seq<string>): (m: seq<string>)
    ensures |m| <= |fields|
  {
    if fields == [] then []
    else (if IsMissing(body, fields[0]) then [fields[0]] else []) + Missing(body, fields[1..])
  }

  /** `parts.join(sep)`. */
  function Join(parts: seq<string>, sep: string): string {
    if |parts| == 0 then ""
    else if |parts| == 1 then parts[0]
    else parts[0] + sep + Join(parts[1..], sep)
  }

  const MissingPrefix := "Missing fields: "

  /** `requireFields` either returns, or throws an error carrying an HTTP status and a message. */
  datatype Validation = Valid | Invalid(status: int, message: string)

  /** `requireFields(obj, fields)`. */
  function RequireFields(body: Body, fields: seq<string>): (v: Validation)
    ensures v.Invalid? <==> exists f :: f in fields && IsMissing(body, f)
    ensures v.Invalid? ==> v.status == 400 && v.message == MissingPrefix + Join(Missing(body, fields), ", ")
  {
    var missing := Missing(body, fields);
    MissingMembers(body, fields);
    if |missing| > 0 then
      assert missing[0] in missing;
      Invalid(400, MissingPrefix + Join(missing, ", "))
    else
      Valid
  }

  /** A field is reported missing exactly when it is listed and missing. */
  lemma {:induction false} MissingMembers(body: Body, fields: seq<string>)
    ensures forall f :: f in Missing(body, fields) <==> f in fields && IsMissing(body, f)
  {
    if fields != [] {
      MissingMembers(body, fields[1..]);
      assert forall f :: f in fields <==> f == fields[0] || f in fields[1..];
    }
  }

  /** Filtering distributes over concatenation: the missing fields keep the order they were listed in. */
  lemma {:induction false} MissingKeepsOrder(body: Body, a: seq<string>, b: seq<string>)
    ensures Missing(body, a + b) == Missing(body, a) + Missing(body, b)
  {
    if a == [] {
      assert a + b == b;
    } else {
      var head := if IsMissing(body, a[0]) then [a[0]] else [];
      assert (a + b)[0] == a[0];
      assert (a + b)[1..] == a[1..] + b;
      assert Missing(body, a + b) == head + Missing(body, a[1..] + b);
      MissingKeepsOrder(body, a[1..], b);
      assert Missing(body, a) == head + Missing(body, a[1..]);
      assert head + (Missing(body, a[1..]) + Missing(body, b)) == (head + Missing(body, a[1..])) + Missing(body, b);
    }
  }

  /** A field listed once is reported once when missing and not at all otherwise. */
  lemma {:induction false} MissingSingle(body: Body, f: string)
    ensures Missing(body, [f]) == if IsMissing(body, f) then [f] else []
  {
    assert [f][1..] == [];
  }

  /** Bodies that agree on the listed fields miss the same ones. */
  lemma {:induction false} MissingAgree(b1: Body, b2: Body, fields: seq<string>)
    requires forall f :: f in fields ==> IsMissing(b1, f) == IsMissing(b2, f)
    ensures Missing(b1, fields) == Missing(b2, fields)
  {
    if fields != [] {
      assert fields[0] in fields;
      assert forall f :: f in fields[1..] ==> f in fields;
      MissingAgree(b1, b2, fields[1..]);
    }
  }

  const DefaultLimit := 20
  const MaxLimit := 100

  datatype Pagination = Pagination(limit: int, offset: nat)

  /**
   * `paginated(req)`: `limit = min(limit ?? 20, 100)`, `offset = max(offset ?? 0, 0)`.
   * The query parameters arrive already parsed as integers.
   */
  function Paginate(limit: Option<int>, offset: Option<int>): (p: Pagination)
    ensures p.limit <= MaxLimit
    ensures limit.None? ==> p.limit == DefaultLimit
    ensures limit.Some? && limit.value <= MaxLimit ==> p.limit == limit.value
    ensures limit.Some? && limit.value > MaxLimit ==> p.limit == MaxLimit
    ensures offset.None? ==> p.offset == 0
    ensures offset.Some? && offset.value >= 0 ==> p.offset == offset.value
    ensures offset.Some? && offset.value < 0 ==> p.offset == 0
  {
    var l := limit.GetOr(DefaultLimit);
    var o := offset.GetOr(0);
    Pagination(if l < MaxLimit then l else MaxLimit, if o > 0 then o else 0)
  }
}
